=== FILE: README.md ===
# Salon booking — a verified model of the calendar, the form and the booking API

This project models the logic of the salon-booking application in Dafny:

- the month calendar of the browser console (`frontend/script.js`): month
  navigation, the grid `renderCalendar` builds (weekday headers, leading
  cells of the previous month, the month's days, trailing cells of the next
  month), and the data `createDayElement` attaches to each cell (today flag,
  `YYYY-MM-DD` date key, appointment count, count label, click behaviour);
- the booking form: `getFormData` trimming, `validateFormData`, the request
  it sends, `formatTime` and `getToastIcon`;
- the four appointment routes of the server (`backend/server.js`), each a
  pure function from the table's contents and the request to the status,
  the reply body and the table's new contents.

Modules:

| file | module | contents |
|---|---|---|
| wrappers.dfy | Wrappers | `Option` |
| text.dfy | Text | ECMAScript `trim`, decimal rendering of integers, `padStart(2, '0')`, code-point string order |
| gregorian.dfy | Gregorian | the proleptic Gregorian calendar as ECMAScript `Date` computes it (`DayFromYear`, month lengths, weekdays, the 0..99 year mapping) |
| calendar.dfy | Calendar | navigation, cells, the grid and its properties |
| rows.dfy | Rows | appointment rows, the two `ORDER BY` orders, sorting, `WHERE data = $1` |
| booking.dfy | Booking | the table, the route handlers, the table invariant, sequences of requests |
| form.dfy | Form | the form, its validation against the server's guard, display helpers |

The month shape (weekday of day 1, month length, previous month length) is
computed from the year and month with the ECMAScript day-number formulas,
so the properties of the grid are stated about real calendar dates: every
cell stands for a real day, consecutive cells are consecutive days, and each
cell sits under the header of its own weekday.

The trailing loop of `renderCalendar` fills the grid up to 42, six weeks of
seven days, which is the size of a grid of day cells that covers any month.
But the code appends the seven weekday headers to the same container before
it counts the children, so the 42 includes them: a month whose leading and
own days exceed 35 gets an incomplete last week. The model follows the code
as written and gives the corrected grid beside it (see Findings).

## Model

| member | source | states |
|---|---|---|
| Calendar.NavigateMonth | frontend/script.js:241-253 | the month always lands in 0..11; a step of +1 or -1 from a valid month moves `12 * year + month` by exactly that step |
| Calendar.NavigateInverse | frontend/script.js:241-253 | the next-month and previous-month buttons undo each other |
| Gregorian.DaysInMonth | frontend/script.js:280-281 | every month is 28 to 31 days long |
| Gregorian.MonthLengthIsGap | frontend/script.js:280-281 | `new Date(y, m + 1, 0).getDate()` is the gap between the day numbers of the first days of consecutive months, across the year boundary too |
| Gregorian.DayFromYearStep | frontend/script.js:279-282 | the ECMAScript `DayFromYear` formula advances by 366 days exactly in leap years and 365 otherwise |
| Gregorian.LeapRule | frontend/script.js:280-281 | the leap-year rule is the inclusion-exclusion of divisibility by 4, 100 and 400 |
| Gregorian.WeekDay | frontend/script.js:282 | `getDay()` is in 0..6 and counts from the Thursday of 1 January 1970 |
| Gregorian.JsYear | frontend/script.js:279-287 | the `Date` constructor reads years 0..99 as 1900..1999 and keeps every other year |
| Calendar.ShapeOf | frontend/script.js:279-287 | the previous month's length is the Gregorian length of the month before the displayed one |
| Calendar.DaySpecsLayout | frontend/script.js:289-307 | `start` leading days counting up to `prevLastDay`, then days 1..`daysInMonth`, then trailing days 1, 2, ... while fewer than 35 day cells exist |
| Calendar.GridLayout | frontend/script.js:270-307 | the container holds the seven weekday headers in order, then one cell per day, in order |
| Calendar.GridContents | frontend/script.js:255-308 | in the children `RenderCalendar` builds, leading cells are other-month and numbered `prevLastDay - start + 1 .. prevLastDay`; current cells are numbered `1..daysInMonth` (the Gregorian length) and not other-month; trailing cells are other-month and numbered from 1; the child count is `max(42, 7 + start + daysInMonth)` |
| Calendar.TrailingCellCount | frontend/script.js:300-307 | trailing cells number `max(0, 35 - start - daysInMonth)` and day cells `max(35, start + daysInMonth)`, because the headers count toward 42 |
| Calendar.DaySpecDates | frontend/script.js:279-307 | the day cells run through consecutive calendar days starting on the Sunday of day 1's week, each a real day of the month it stands for, the `p`-th on weekday `p % 7` |
| Calendar.CellsFollowCalendar | frontend/script.js:270-307 | every rendered day cell shows a real day and sits in the column whose header names its weekday |
| Calendar.CreateDayElement | frontend/script.js:309-359 | the cell keeps its number and other-month flag; today iff current-month, number equals today's day and month and year equal today's; key from the displayed month; count is the bucket size; label present iff the count is positive |
| Calendar.RenderedCellAt | frontend/script.js:289-307 | the rendered child at `7 + p` is the day cell built for the `p`-th day, with that day's number, flag, key, count and today flag |
| Calendar.AtMostOneToday | frontend/script.js:319-325 | no two cells of the grid are flagged today |
| Calendar.TodayShownIff | frontend/script.js:319-325 | some cell is flagged today exactly when the clock's date lies in the displayed month |
| Calendar.DateKeyInjective | frontend/script.js:328 | distinct dates (month 0..11, day 1..31) get distinct `YYYY-MM-DD` keys |
| Calendar.KeyFollowsNumberOnly | frontend/script.js:328-332 | every cell's key is built from the displayed month, so two cells with the same number share key and count even if one shows another month |
| Calendar.CurrentMonthKeysDistinct | frontend/script.js:328-332 | distinct cells of the displayed month have distinct keys |
| Calendar.CountKey | frontend/script.js:329-332 | the bucket of a key holds as many appointments as the key occurs among the appointments' keys |
| Calendar.CountLabel | frontend/script.js:344-349 | the label is exactly the count's numeral, then " agendamento", then an "s" present exactly when the count exceeds one |
| Calendar.CountLabelReadsBack | frontend/script.js:344-349 | the label's leading run of digits reads back as the count |
| Calendar.OnClick | frontend/script.js:352-365 | other-month cells ignore clicks; a current-month cell with no appointments shows the notice; otherwise the day's key and count are shown |
| Calendar.ShortGridExample | frontend/script.js:300-307 | August 2026 (starting on a Saturday, 31 days) gets 44 children and a last week of two days |
| Calendar.FixedDaySpecsLayout | frontend/script.js:289-307 | with the corrected count every month shows exactly 42 day cells, at least five of them trailing |
| Calendar.RenderCalendarFixedFullWeeks | frontend/script.js:300-307 | the corrected grid always holds 49 children: seven headers and six full weeks |
| Text.Trim | frontend/script.js:108-109 | the result is a slice of the input with only white space cut at both ends, and neither end is white space |
| Text.TrimEmptyIff | frontend/script.js:108-109 | a field trims to the empty string exactly when it is all white space |
| Text.TrimIdempotent | frontend/script.js:108-109 | trimming twice is trimming once |
| Text.NatToString | frontend/script.js:328 | the decimal form is non-empty, all digits and without leading zeros |
| Text.ParseNatToString | frontend/script.js:328 | reading the decimal form back gives the number |
| Text.IntToStringInjective | frontend/script.js:328 | distinct years render differently |
| Text.PadStart2 | frontend/script.js:328 | padding gives `max(2, |s|)` characters ending with `s` and starting with zeros |
| Text.Pad2Injective | frontend/script.js:328 | distinct numbers below 100 pad to distinct two-character strings |
| Text.StrLeTotal | backend/server.js:99 | the text order of dates and times is total |
| Text.StrLeAntisymmetric | backend/server.js:99 | the text order is antisymmetric |
| Text.StrLeTransitive | backend/server.js:99 | the text order is transitive |
| Rows.LeTransitive | backend/server.js:99 | `ORDER BY data, horario` and `ORDER BY horario` are transitive |
| Rows.LeTotal | backend/server.js:99 | both orders are total |
| Rows.Insert | backend/server.js:95-100 | inserting into a sorted sequence keeps it sorted and adds exactly the row |
| Rows.Sort | backend/server.js:95-100 | `ORDER BY` returns a sorted permutation of the rows |
| Rows.Filter | backend/server.js:118-122 | `WHERE data = $1` keeps every copy of each row of that date and nothing else |
| Rows.FilterSorted | backend/server.js:118-123 | filtering keeps a sorted sequence sorted |
| Rows.SortedUnique | backend/server.js:95-123 | without ties there is exactly one sorted arrangement of a multiset of rows |
| Rows.SortFilterCommute | backend/server.js:95-123 | with distinct slots, one date's rows sorted by time equal the rows of that date taken from the full listing |
| Booking.Code | backend/server.js:44-152 | replies of the success statuses (200, 201) are exactly the codes below 300, and every code is in 200..499 |
| Booking.Create | backend/server.js:44-82 | sent with HTTP 400, 409 or 201: 400 iff a field is missing or empty (checked before the conflict); 409 iff complete and the slot is taken; otherwise 201, the table gains exactly one row at the end with the next id, `created_at = now` and the request's fields; on 400 and 409 the table is unchanged |
| Booking.Delete | backend/server.js:137-152 | sent with HTTP 404 or 200: 404 iff no row has the id, with the table unchanged; otherwise 200 and exactly the rows with that id are gone |
| Booking.WithoutIdCounts | backend/server.js:141 | `DELETE ... WHERE id = $1` removes every copy of the rows with the id and nothing else |
| Booking.ListAll | backend/server.js:93-103 | the listing is a permutation of the table, non-decreasing by date and time, and the table is unchanged |
| Booking.ListByDate | backend/server.js:114-126 | answers 200 with the table unchanged; the listing has as many entries as the table has rows of the requested date, every entry has that date and no `created_at`, and the entries are in non-decreasing time order |
| Booking.ListByDateComplete | backend/server.js:118-122 | every row of the requested date is listed, on any table |
| Booking.ListByDateSound | backend/server.js:118-122 | every listed row is a row of the table with the requested date, without `created_at` |
| Booking.CreatePreservesWf | backend/server.js:55-77 | a create keeps ids distinct and below the sequence, and no slot booked twice |
| Booking.DeletePreservesWf | backend/server.js:141-151 | a delete keeps the table well formed |
| Booking.RunPreservesWf | backend/server.js:44-160 | any sequence of creates and deletes served one at a time keeps the table well formed, so no slot is ever booked twice |
| Booking.DuplicateSlotRejected | backend/server.js:55-66 | after a successful create, any complete request for the same date and time gets 409 |
| Booking.DeleteUndoesCreate | backend/server.js:137-152 | deleting the id a create just assigned answers 200 and restores the rows |
| Booking.WithoutFreshId | backend/server.js:141-144 | a row appended after rows with smaller ids is found by its id and deleting it leaves exactly the earlier rows |
| Booking.DeleteRemovesOne | backend/server.js:141-151 | on a well-formed table a successful delete removes exactly one row, the one with the id |
| Booking.DeleteTwiceNotFound | backend/server.js:141-148 | deleting the same id twice answers 404 the second time |
| Booking.ListByDateIsFilteredListAll | backend/server.js:95-126 | on a well-formed table, listing a date gives exactly the full listing's rows of that date, in the same order, without `created_at` |
| Form.GetFormData | frontend/script.js:106-114 | name and phone are read trimmed of surrounding white space; date, time and service as they are |
| Form.ValidateIff | frontend/script.js:106-118 | `ValidateFormData` accepts what `GetFormData` read exactly when name and phone are not all white space and date, time and service are non-empty |
| Form.GetFormDataIdempotent | frontend/script.js:106-114 | reading an already-read form changes nothing |
| Form.ToRequest | frontend/script.js:130-136 | the request carries all five fields as strings |
| Form.ClientServerAgree | backend/server.js:46-53 | on what the page sends, the page's check passes exactly when the server does not answer 400 |
| Form.ServerAcceptsBlankName | backend/server.js:49-53 | a name of one space passes the server's guard but not the page's check |
| Form.FormatTime | frontend/script.js:387-389 | the result is the first `min(5, |t|)` characters of `t` |
| Form.FormatTimeIdempotent | frontend/script.js:387-389 | formatting twice is formatting once |
| Form.FormatTimeDropsSeconds | frontend/script.js:387-389 | `HH:MM:SS` is shown as `HH:MM`, and `HH:MM` unchanged |
| Form.ToastIcon | frontend/script.js:423-431 | a known type gets its own icon, any other type the info icon |
| Form.ToastIconsDistinct | frontend/script.js:423-431 | the four types get four different icons |

## Left out

- Express, CORS, body parsing, static files, the `pg` pool and its configuration, `dotenv`, `app.listen`, the `unhandledRejection` exit and the health route: plumbing and foreign libraries.
- The 500 branches of every route: connection and driver failures, which the model cannot see, and the database's rejections of values it cannot parse, which are listed under `Booking.Create` and `Booking.ListByDate` below.
- The check-then-insert race between concurrent creates: the model serves requests one at a time.
- DOM work, `fetch`, toasts, the loading overlay, navigation, `alert`/`confirm`, the service-worker stub, and `showDayAppointments`' message text.
- The `new Date(ag.data).toISOString()` bucketing of appointments and `toLocaleDateString`: they depend on the time zone and the locale. The model takes each appointment's bucket key as given (`keys`), and counts by key equality.
- The default "next hour" time of the form: it reads the wall clock. The render-time clock is a parameter (`Clock`).
- Calendar.AtMostOneToday: assumes the clock does not change during a render. The source reads `new Date()` once per cell (frontend/script.js:319), so a render that crosses midnight can flag two cells (day 10 built before midnight, day 11 after); the model passes one `Clock` to every cell.
- Calendar.TodayShownIff: rests on the same single clock per render, for the same reason.
- Booking.Create: dates and times are the text the client sent, compared as text, where PostgreSQL compares `DATE` and `TIME` values. Two differences follow. A time written two ways ("14:00" and "14:00:00") is one `TIME` value, so PostgreSQL answers 409 to the second spelling of a booked slot, where the model answers 201; `SlotsDistinct`, `CreatePreservesWf` and `RunPreservesWf` promise distinct slots only as text. A date or time PostgreSQL cannot parse ("abc", "31/12/2024") makes the query fail with a 500, where the model answers 201. The rendering of `TIME` as `HH:MM:SS` in replies is not modelled either.
- Booking.ListAll: the listing is sorted in code-point order of the date and time text. That is PostgreSQL's order of `DATE` and `TIME` values only for zero-padded `YYYY-MM-DD` dates and `HH:MM[:SS]` times. PostgreSQL also accepts "9:00" (or "2024-6-10") and sorts it by value, so on one date it lists a row at "9:00" before one at "10:00", where the model lists "10:00" first.
- Booking.ListByDate: the time order of the listing is the same code-point order, with the same "9:00"/"10:00" difference from PostgreSQL.
- Booking.ListByDate: an unparsable date in the path makes the query fail with a 500, where the model answers 200 with the rows stored under that text; and rows stored under another spelling of the same date are not matched.
- Ties in `ORDER BY` may come back in any order in SQL; the model's sort keeps them in table order, and its contracts promise only a sorted permutation.
- JSON fields that are not strings (numbers, booleans, `null`): a field is a string or absent. Non-numeric ids in `DELETE` make the database raise an error (a 500); the id is an integer here.
- Booking.Delete: ids are unbounded integers. The id column is assumed to be a 32-bit `SERIAL` (the schema is not part of this model), so an id outside its range (`DELETE /api/agendamentos/3000000000`) makes the query fail and the source answers 500, where the model answers 404.
- Booking.Create: the upper limit of the id sequence is not modelled; once it passes 2147483647 every insert fails with a 500 in the source, where the model keeps answering 201.
- The id sequence's gaps after failed inserts: the next id is advanced only by successful creates.
- JavaScript strings are UTF-16; the model's strings are sequences of code points, which differ only outside the Basic Multilingual Plane.
- The range limits of ECMAScript `Date` (about 275 000 years either side of 1970): years are unbounded here.
- Booking.ListByDate: the multiplicity of each listed row is not stated; the contract gives the count of entries, and `ListByDateComplete` and `ListByDateSound` give membership in both directions.
- Form.ToastIcon: `icons[type]` also finds inherited properties of plain objects (such as `toString`), which the map lookup does not model.
- Text.IsJsSpace: covers the white-space and line-terminator code points of ECMAScript `trim` as of Unicode 15; other Unicode versions may differ in the `Zs` category.

## Findings

| source | as written | input that shows it | evidently intended | confidence | as-written member | corrected member |
|---|---|---|---|---|---|---|
| frontend/script.js:270-307 | `remainingCells = 42 - calendarGrid.children.length`, and the container already holds the seven weekday headers | August 2026: starts on a Saturday with 31 days, so 6 + 31 = 37 day cells and no trailing cells; the last week shows two days | 42 day cells, six complete weeks, for every month | not executed | Calendar.ShortGridExample | Calendar.RenderCalendarFixedFullWeeks |

=== FILE: booking.dfy ===
/**
 * The appointment API of the server: each route handler as a pure function
 * from the table's contents and the request to the reply and the table's new
 * contents. The database is the sequence of rows plus the next value of the
 * id sequence; the `created_at` default is the `now` parameter. The table's
 * schema is not part of this model: the id column is assumed to be a
 * `SERIAL` (a 32-bit integer filled from a sequence), and ids are unbounded
 * integers here.
 */
module Booking {
  import opened Wrappers
  import opened Text
  import opened Rows

  /** The `agendamentos` table and its id sequence. */
  datatype Store = Store(rows: seq<Row>, nextId: nat)

  /** The table of a freshly created database: the id sequence starts at 1. */
  function EmptyStore(): (s: Store)
    ensures s.rows == [] && s.nextId == 1
  {
    Store([], 1)
  }

  /** The JSON body of `POST /api/agendamentos`; `None` is an absent field. */
  datatype Request = Request(nomeCliente: Option<string>, telefone: Option<string>,
                             data: Option<string>, horario: Option<string>,
                             servico: Option<string>)

  datatype Status = Ok | Created | BadRequest | NotFound | Conflict

  /** The HTTP status code a reply is sent with. */
  function Code(st: Status): (c: int)
    ensures 200 <= c < 500
    ensures c < 300 <==> st == Ok || st == Created
  {
    match st
    case Ok => 200
    case Created => 201
    case BadRequest => 400
    case NotFound => 404
    case Conflict => 409
  }

  /** The reply's status and the rows its body carries (the created row,
      or the listed rows), with the table after the request. */
  datatype Reply = Reply(status: Status, body: seq<Row>, store: Store)

  /** A JavaScript string field is truthy when present and non-empty. */
  predicate Present(f: Option<string>) {
    f.Some? && f.value != ""
  }

  /** The server's own validation: every field present and non-empty. */
  predicate Complete(req: Request) {
    Present(req.nomeCliente) && Present(req.telefone) && Present(req.data)
    && Present(req.horario) && Present(req.servico)
  }

  /** Some row of the table books date `d` at time `h`. */
  predicate SlotTaken(rows: seq<Row>, d: string, h: string) {
    exists i :: 0 <= i < |rows| && rows[i].data == d && rows[i].horario == h
  }

  /** `POST /api/agendamentos`: 400 when a field is missing or empty, 409
      when the slot is already booked, otherwise 201 with the inserted row,
      which takes the next id and `created_at = now`. */
  function Create(s: Store, req: Request, now: int): (r: Reply)
    ensures r.status == BadRequest <==> !Complete(req)
    ensures r.status == Conflict <==> Complete(req) && SlotTaken(s.rows, req.data.value, req.horario.value)
    ensures r.status in {BadRequest, Conflict, Created}
    ensures Code(r.status) in {201, 400, 409}
    ensures r.status != Created ==> r.store == s && r.body == []
    ensures r.status == Created ==>
              && |r.body| == 1
              && r.store == Store(s.rows + r.body, s.nextId + 1)
              && r.body[0].id == s.nextId
              && r.body[0].createdAt == Some(now)
              && Some(r.body[0].nomeCliente) == req.nomeCliente
              && Some(r.body[0].telefone) == req.telefone
              && Some(r.body[0].data) == req.data
              && Some(r.body[0].horario) == req.horario
              && Some(r.body[0].servico) == req.servico
  {
    if !Complete(req) then Reply(BadRequest, [], s)
    else if SlotTaken(s.rows, req.data.value, req.horario.value) then Reply(Conflict, [], s)
    else
      var row := Row(s.nextId, req.nomeCliente.value, req.telefone.value, req.data.value,
                     req.horario.value, req.servico.value, Some(now));
      Reply(Created, [row], Store(s.rows + [row], s.nextId + 1))
  }

  /** The rows whose id is not `id`, in order. */
  function WithoutId(rows: seq<Row>, id: int): seq<Row> {
    if rows == [] then []
    else (if rows[0].id == id then [] else [rows[0]]) + WithoutId(rows[1..], id)
  }

  /** `WHERE id = $1` deletes every copy of the rows with id `id` and
      nothing else. */
  lemma {:induction false} WithoutIdCounts(rows: seq<Row>, id: int)
    ensures forall x :: multiset(WithoutId(rows, id))[x] == if x.id == id then 0 else multiset(rows)[x]
  {
    if rows != [] {
      assert rows == [rows[0]] + rows[1..];
      WithoutIdCounts(rows[1..], id);
    }
  }

  /** Some row of the table has id `id`. */
  predicate HasId(rows: seq<Row>, id: int) {
    exists i :: 0 <= i < |rows| && rows[i].id == id
  }

  /** `DELETE /api/agendamentos/:id`: 404 when no row has the id (the
      table is unchanged), otherwise 200 and the rows with that id are
      gone. */
  function Delete(s: Store, id: int): (r: Reply)
    ensures r.status == NotFound <==> !HasId(s.rows, id)
    ensures r.status in {Ok, NotFound}
    ensures Code(r.status) in {200, 404}
    ensures r.body == [] && r.store.nextId == s.nextId
    ensures r.status == NotFound ==> r.store == s
    ensures forall x :: multiset(r.store.rows)[x] == if x.id == id then 0 else multiset(s.rows)[x]
  {
    WithoutIdCounts(s.rows, id);
    if HasId(s.rows, id) then Reply(Ok, [], Store(WithoutId(s.rows, id), s.nextId))
    else
      assert WithoutId(s.rows, id) == s.rows by {
        WithoutMissingId(s.rows, id);
      }
      Reply(NotFound, [], s)
  }

  lemma {:induction false} WithoutMissingId(rows: seq<Row>, id: int)
    requires !HasId(rows, id)
    ensures WithoutId(rows, id) == rows
  {
    if rows != [] {
      forall i | 0 <= i < |rows[1..]|
        ensures rows[1..][i].id != id
      {
        assert rows[1..][i] == rows[i + 1];
      }
      WithoutMissingId(rows[1..], id);
      assert rows == [rows[0]] + rows[1..];
    }
  }

  /** `GET /api/agendamentos`: every row, ordered by date then time. */
  function ListAll(s: Store): (r: Reply)
    ensures r.status == Ok && r.store == s
    ensures multiset(r.body) == multiset(s.rows)
    ensures Sorted(BySlot, r.body)
  {
    Reply(Ok, Sort(BySlot, s.rows), s)
  }

  /** `GET /api/agendamentos/:data`: the rows of date `d`, ordered by
      time, without `created_at`. */
  function ListByDate(s: Store, d: string): (r: Reply)
    ensures r.status == Ok && r.store == s
    ensures forall i :: 0 <= i < |r.body| ==> r.body[i].data == d && r.body[i].createdAt == None
    ensures forall i, j :: 0 <= i < j < |r.body| ==> StrLe(r.body[i].horario, r.body[j].horario)
    ensures |r.body| == |Filter(s.rows, d)|
  {
    var rows := Sort(ByTime, Filter(s.rows, d));
    SortedFilterDates(ByTime, s.rows, d);
    assert |rows| == |multiset(rows)| == |multiset(Filter(s.rows, d))|;
    Reply(Ok, StripAll(rows), s)
  }

  /** Every row of date `d` is listed, stripped of `created_at`. */
  lemma ListByDateComplete(s: Store, d: string, x: Row)
    requires x in s.rows && x.data == d
    ensures Strip(x) in ListByDate(s, d).body
  {
    var sorted := Sort(ByTime, Filter(s.rows, d));
    assert x in multiset(sorted) by {
      assert x in multiset(s.rows);
    }
    var k :| 0 <= k < |sorted| && sorted[k] == x;
    assert ListByDate(s, d).body[k] == Strip(x);
  }

  /** Every listed row is a row of date `d` of the table, stripped of
      `created_at`. */
  lemma ListByDateSound(s: Store, d: string, i: int)
    requires 0 <= i < |ListByDate(s, d).body|
    ensures exists y :: y in s.rows && y.data == d && ListByDate(s, d).body[i] == Strip(y)
  {
    var sorted := Sort(ByTime, Filter(s.rows, d));
    assert ListByDate(s, d).body[i] == Strip(sorted[i]);
    assert sorted[i] in multiset(sorted);
    assert sorted[i] in multiset(s.rows);
  }

  // ------------------------------------------------------ invariants

  /** What the table keeps true: no row twice, ids distinct and below
      the next id, and no two rows booking the same slot (the server's
      conflict check). */
  ghost predicate Wf(s: Store) {
    && (forall x :: multiset(s.rows)[x] <= 1)
    && (forall x, y :: x in s.rows && y in s.rows && x.id == y.id ==> x == y)
    && (forall x :: x in s.rows ==> x.id < s.nextId)
    && SlotsDistinct(s.rows)
  }

  lemma EmptyStoreWf()
    ensures Wf(EmptyStore())
  {
  }

  lemma CreatePreservesWf(s: Store, req: Request, now: int)
    requires Wf(s)
    ensures Wf(Create(s, req, now).store)
  {
    var r := Create(s, req, now);
    if r.status == Created {
      var row := r.body[0];
      assert row !in s.rows;
      assert r.store.rows == s.rows + [row];
      forall x
        ensures multiset(r.store.rows)[x] <= 1
      {
        assert multiset(r.store.rows) == multiset(s.rows) + multiset{row};
      }
      forall x | x in s.rows
        ensures !SameSlot(x, row)
      {
        var i :| 0 <= i < |s.rows| && s.rows[i] == x;
      }
    }
  }

  lemma DeletePreservesWf(s: Store, id: int)
    requires Wf(s)
    ensures Wf(Delete(s, id).store)
  {
    var rows := Delete(s, id).store.rows;
    forall x | x in rows
      ensures x in s.rows
    {
      assert x in multiset(rows);
    }
  }

  // ------------------------------------------------- relating the routes

  /** Once a slot is booked, a second complete request for the same date
      and time is refused with 409, whatever its other fields. */
  lemma DuplicateSlotRejected(s: Store, req: Request, now: int, req2: Request, now2: int)
    requires Create(s, req, now).status == Created
    requires Complete(req2) && req2.data == req.data && req2.horario == req.horario
    ensures Create(Create(s, req, now).store, req2, now2).status == Conflict
  {
    var s' := Create(s, req, now).store;
    assert s'.rows[|s.rows|] == Create(s, req, now).body[0];
  }

  lemma {:induction false} WithoutIdAppend(a: seq<Row>, b: seq<Row>, id: int)
    ensures WithoutId(a + b, id) == WithoutId(a, id) + WithoutId(b, id)
  {
    if a == [] {
      assert a + b == b;
    } else {
      var h: seq<Row> := if a[0].id == id then [] else [a[0]];
      var x, y, z := WithoutId(a[1..], id), WithoutId(b, id), WithoutId(a[1..] + b, id);
      assert WithoutId(a + b, id) == h + z by {
        assert (a + b)[0] == a[0];
        assert (a + b)[1..] == a[1..] + b;
      }
      WithoutIdAppend(a[1..], b, id);
      assert h + (x + y) == (h + x) + y;
    }
  }

  /** Deleting the row a create just inserted restores the table (the id
      sequence stays advanced). */
  lemma DeleteUndoesCreate(s: Store, req: Request, now: int)
    requires Wf(s)
    requires Create(s, req, now).status == Created
    ensures var s' := Create(s, req, now).store;
            && Delete(s', s.nextId).status == Ok
            && Delete(s', s.nextId).store == Store(s.rows, s.nextId + 1)
  {
    var r := Create(s, req, now);
    assert r.store.rows == s.rows + r.body && r.body[0].id == s.nextId;
    WithoutFreshId(s.rows, r.body[0]);
  }

  /** Removing the id of a row appended after rows with smaller ids leaves
      exactly those rows. */
  lemma WithoutFreshId(rows: seq<Row>, row: Row)
    requires forall x :: x in rows ==> x.id < row.id
    ensures HasId(rows + [row], row.id)
    ensures WithoutId(rows + [row], row.id) == rows
  {
    assert (rows + [row])[|rows|] == row;
    assert !HasId(rows, row.id) by {
      forall i | 0 <= i < |rows|
        ensures rows[i].id != row.id
      {
        assert rows[i] in rows;
      }
    }
    WithoutMissingId(rows, row.id);
    WithoutIdAppend(rows, [row], row.id);
    assert WithoutId([row], row.id) == [];
  }

  /** A successful delete removes exactly one row, the one with the id. */
  lemma DeleteRemovesOne(s: Store, id: int)
    requires Wf(s)
    requires HasId(s.rows, id)
    ensures exists x :: x in s.rows && x.id == id
                        && multiset(Delete(s, id).store.rows) == multiset(s.rows) - multiset{x}
  {
    var i :| 0 <= i < |s.rows| && s.rows[i].id == id;
    var x := s.rows[i];
    var m := multiset(Delete(s, id).store.rows);
    forall y
      ensures m[y] == (multiset(s.rows) - multiset{x})[y]
    {
      if y.id == id && y in s.rows {
        assert y == x;
      }
    }
    assert m == multiset(s.rows) - multiset{x};
  }

  /** The same id cannot be deleted twice. */
  lemma DeleteTwiceNotFound(s: Store, id: int)
    ensures Delete(Delete(s, id).store, id).status == NotFound
  {
    var rows := Delete(s, id).store.rows;
    forall i | 0 <= i < |rows|
      ensures rows[i].id != id
    {
      assert rows[i] in multiset(rows);
    }
  }

  /** Listing one date gives the rows of that date in the same order as
      the full listing, without `created_at`: no two rows share a slot, so
      the order by time within one date is the order by date and time. */
  lemma ListByDateIsFilteredListAll(s: Store, d: string)
    requires Wf(s)
    ensures ListByDate(s, d).body == StripAll(Filter(ListAll(s).body, d))
  {
    SortFilterCommute(s.rows, d);
  }

  // ---------------------------------------------------------- sessions

  /** A request that changes the table: a `POST` (with the time it
      arrives) or a `DELETE`. */
  datatype Command = Post(req: Request, now: int) | Remove(id: int)

  function Step(s: Store, c: Command): Reply {
    match c
    case Post(req, now) => Create(s, req, now)
    case Remove(id) => Delete(s, id)
  }

  /** The table after serving `cs` one after another. */
  function Run(s: Store, cs: seq<Command>): Store
    decreases |cs|
  {
    if cs == [] then s else Run(Step(s, cs[0]).store, cs[1..])
  }

  /** Served one at a time, any sequence of creates and deletes keeps the
      table well formed: in particular no slot is ever booked twice. */
  lemma {:induction false} RunPreservesWf(s: Store, cs: seq<Command>)
    requires Wf(s)
    ensures Wf(Run(s, cs))
    ensures SlotsDistinct(Run(s, cs).rows)
    decreases |cs|
  {
    if cs != [] {
      match cs[0] {
        case Post(req, now) => CreatePreservesWf(s, req, now);
        case Remove(id) => DeletePreservesWf(s, id);
      }
      RunPreservesWf(Step(s, cs[0]).store, cs[1..]);
    }
  }
}

=== FILE: calendar.dfy ===
/**
 * The month calendar of the booking console: month navigation, the grid of
 * weekday headers and day cells built by `renderCalendar`, and the per-cell
 * data `createDayElement` attaches (today flag, date key, appointment count,
 * count label, click behaviour).
 *
 * Two behaviours of the console are kept as they are:
 *  - the seven weekday headers live in the same container as the day cells,
 *    so they count toward the 42 the trailing cells fill up to;
 *  - every cell's date key is built from the displayed month, including the
 *    cells that show days of the previous or next month.
 */
module Calendar {
  import opened Wrappers
  import opened Text
  import opened Gregorian

  /** The displayed month: `currentYear` and the 0-based `currentMonth`. */
  datatype View = View(year: int, month: int)

  predicate ValidView(v: View) {
    0 <= v.month <= 11
  }

  /** Months since January of year 0. */
  function MonthIndex(v: View): int {
    12 * v.year + v.month
  }

  /** The wall-clock date at rendering time: `getFullYear`, `getMonth`,
      `getDate` of `new Date()`. */
  datatype Clock = Clock(year: int, month: int, day: int)

  // ---------------------------------------------------------- navigation

  /** `navigateMonth(direction)`: the month always lands in 0 .. 11, and a
      step of one month either way moves the month index by exactly that
      step, rolling the year over at the December/January boundary. */
  function NavigateMonth(v: View, direction: int): (r: View)
    ensures ValidView(r)
    ensures ValidView(v) && (direction == -1 || direction == 1) ==> MonthIndex(r) == MonthIndex(v) + direction
  {
    var m := v.month + direction;
    if m < 0 then View(v.year - 1, 11)
    else if m > 11 then View(v.year + 1, 0)
    else View(v.year, m)
  }

  /** The previous-month button undoes the next-month button and back. */
  lemma NavigateInverse(v: View)
    requires ValidView(v)
    ensures NavigateMonth(NavigateMonth(v, 1), -1) == v
    ensures NavigateMonth(NavigateMonth(v, -1), 1) == v
  {
  }

  // ----------------------------------------------------------- day cells

  /** What a click on a day cell does. */
  datatype Click =
    | Ignore                              // a cell of another month
    | EmptyNotice                         // "no appointments on this day"
    | ShowList(key: string, count: nat)   // the day's appointments

  datatype Cell = Cell(day: int, otherMonth: bool, today: bool, key: string, count: nat, countText: Option<string>)

  /** A child of the grid container: a weekday header or a day cell. */
  datatype Child = Header(name: string) | Day(cell: Cell)

  datatype Rendered = Rendered(title: string, children: seq<Child>)

  const WeekdayNames: seq<string> := ["Dom", "Seg", "Ter", "Qua", "Qui", "Sex", "S\U{E1}b"]

  const MonthNames: seq<string> :=
    ["Janeiro", "Fevereiro", "Mar\U{E7}o", "Abril", "Maio", "Junho",
     "Julho", "Agosto", "Setembro", "Outubro", "Novembro", "Dezembro"]

  /** The `YYYY-MM-DD` key of a day of month `month` (0-based). */
  function DateKey(year: int, month: int, day: int): string {
    IntToString(year) + "-" + PadStart2(IntToString(month + 1)) + "-" + PadStart2(IntToString(day))
  }

  /** Distinct dates get distinct keys. */
  lemma DateKeyInjective(y1: int, m1: int, d1: int, y2: int, m2: int, d2: int)
    requires 0 <= m1 < 12 && 0 <= m2 < 12 && 1 <= d1 <= 31 && 1 <= d2 <= 31
    ensures DateKey(y1, m1, d1) == DateKey(y2, m2, d2) ==> y1 == y2 && m1 == m2 && d1 == d2
  {
    if DateKey(y1, m1, d1) == DateKey(y2, m2, d2) {
      DateKeyParts(y1, m1, d1, y2, m2, d2);
      IntToStringInjective(y1, y2);
      PaddedInjective(m1 + 1, m2 + 1);
      PaddedInjective(d1, d2);
    }
  }

  /** Equal keys have equal year, month and day parts. */
  lemma DateKeyParts(y1: int, m1: int, d1: int, y2: int, m2: int, d2: int)
    requires 0 <= m1 < 12 && 0 <= m2 < 12 && 1 <= d1 <= 31 && 1 <= d2 <= 31
    requires DateKey(y1, m1, d1) == DateKey(y2, m2, d2)
    ensures IntToString(y1) == IntToString(y2)
    ensures PadStart2(IntToString(m1 + 1)) == PadStart2(IntToString(m2 + 1))
    ensures PadStart2(IntToString(d1)) == PadStart2(IntToString(d2))
  {
    var ya, ma, da := IntToString(y1), PadStart2(IntToString(m1 + 1)), PadStart2(IntToString(d1));
    var yb, mb, db := IntToString(y2), PadStart2(IntToString(m2 + 1)), PadStart2(IntToString(d2));
    assert |ma| == 2 && |mb| == 2 by {
      TwoDigits(m1 + 1);
      TwoDigits(m2 + 1);
    }
    assert |da| == 2 && |db| == 2 by {
      TwoDigits(d1);
      TwoDigits(d2);
    }
    assert ya + "-" + ma + "-" + da == yb + "-" + mb + "-" + db;
    SplitKey(ya, ma, da, yb, mb, db);
  }

  lemma PaddedInjective(a: int, b: int)
    requires 1 <= a < 100 && 1 <= b < 100
    ensures PadStart2(IntToString(a)) == PadStart2(IntToString(b)) ==> a == b
  {
    TwoDigits(a);
    TwoDigits(b);
    Pad2Injective(a, b);
  }

  /** Numbers 1 .. 99 pad to exactly two characters. */
  lemma TwoDigits(n: int)
    requires 1 <= n < 100
    ensures IntToString(n) == NatToString(n)
    ensures |PadStart2(IntToString(n))| == 2
  {
    var t := NatToString(n);
    if n < 10 {
      assert |t| == 1;
    } else {
      var h := NatToString(n / 10);
      assert n / 10 < 10;
      assert |h| == 1;
      assert t == h + [DigitChar(n % 10)];
    }
  }

  /** A key `Y-MM-DD` with two-character month and day parts splits back
      into its parts. */
  lemma SplitKey(y1: string, m1: string, d1: string, y2: string, m2: string, d2: string)
    requires |m1| == 2 && |d1| == 2 && |m2| == 2 && |d2| == 2
    requires y1 + "-" + m1 + "-" + d1 == y2 + "-" + m2 + "-" + d2
    ensures y1 == y2 && m1 == m2 && d1 == d2
  {
    var k := y1 + "-" + m1 + "-" + d1;
    var k' := y2 + "-" + m2 + "-" + d2;
    assert |y1| == |y2|;
    assert y1 == k[..|y1|] && y2 == k'[..|y2|];
    assert m1 == k[|y1| + 1..|y1| + 3] && m2 == k'[|y2| + 1..|y2| + 3];
    assert d1 == k[|y1| + 4..] && d2 == k'[|y2| + 4..];
  }

  /** Number of appointments whose date key is `key`. */
  function CountKey(keys: seq<string>, key: string): (n: nat)
    ensures n == multiset(keys)[key]
  {
    if keys == [] then 0
    else
      assert keys == [keys[0]] + keys[1..];
      (if keys[0] == key then 1 else 0) + CountKey(keys[1..], key)
  }

  /** "1 agendamento", "2 agendamentos", ...: the count's numeral, a space,
      the noun, and the plural "s" exactly when the count exceeds one. */
  function CountLabel(n: nat): (r: string)
    ensures var k := |NatToString(n)|;
            && k + 12 <= |r| <= k + 13
            && |r| == k + (if n > 1 then 13 else 12)
            && r[..k] == NatToString(n)
            && r[k..k + 12] == " agendamento"
    ensures |r| > 0 && (r[|r| - 1] == 's' <==> n > 1)
  {
    var r := NatToString(n) + " agendamento" + (if n > 1 then "s" else "");
    assert r[|r| - 1] == if n > 1 then 's' else 'o';
    r
  }

  /** The label shows the count: its leading run of digits, ended by a
      non-digit, reads back as the count. */
  lemma CountLabelReadsBack(n: nat)
    ensures var r, k := CountLabel(n), |NatToString(n)|;
            && k < |r| && AllDigits(r[..k]) && !IsDigit(r[k])
            && ParseDigits(r[..k]) == n
  {
    var r, k := CountLabel(n), |NatToString(n)|;
    assert r[k] == " agendamento"[0];
    ParseNatToString(n);
  }

  /** `createDayElement(day, isOtherMonth)`: `keys` holds the date key of
      every cached appointment. */
  function CreateDayElement(v: View, clock: Clock, keys: seq<string>, day: int, isOtherMonth: bool): (c: Cell)
    ensures c.day == day && c.otherMonth == isOtherMonth
    ensures c.today <==> !isOtherMonth && day == clock.day && v.month == clock.month && v.year == clock.year
    ensures c.key == DateKey(v.year, v.month, day)
    ensures c.count == CountKey(keys, c.key)
    ensures c.countText.Some? <==> c.count > 0
    ensures c.countText.Some? ==> c.countText.value == CountLabel(c.count)
  {
    var key := DateKey(v.year, v.month, day);
    var n := CountKey(keys, key);
    var isToday := !isOtherMonth && day == clock.day && v.month == clock.month && v.year == clock.year;
    Cell(day, isOtherMonth, isToday, key, n, if n > 0 then Some(CountLabel(n)) else None)
  }

  /** The click handler: cells of other months do nothing; a current-month
      cell shows its day's appointments, or a notice when there are none. */
  function OnClick(c: Cell): (r: Click)
    ensures r.Ignore? <==> c.otherMonth
    ensures r.EmptyNotice? <==> !c.otherMonth && c.count == 0
    ensures r.ShowList? ==> r.key == c.key && r.count == c.count
  {
    if c.otherMonth then Ignore
    else if c.count == 0 then EmptyNotice
    else ShowList(c.key, c.count)
  }

  // ---------------------------------------------------------------- grid

  /** The three numbers `renderCalendar` derives from the displayed month:
      `startingDayOfWeek`, `daysInMonth` and `prevLastDay`. */
  datatype MonthShape = MonthShape(start: int, length: int, prevLength: int)

  predicate ValidShape(f: MonthShape) {
    0 <= f.start < 7 && 28 <= f.length <= 31 && 28 <= f.prevLength <= 31
  }

  /** The shape of the displayed month as the `Date` constructor computes
      it (which reads years 0 .. 99 as 1900 .. 1999): the weekday of day 1
      (0 = Sunday), `new Date(y, m + 1, 0).getDate()`, and the same for the
      month before. */
  function ShapeOf(v: View): (f: MonthShape)
    requires ValidView(v)
    ensures ValidShape(f)
    ensures var (py, pm) := PrevMonth(JsYear(v.year), v.month);
            f.prevLength == DaysInMonth(py, pm)
  {
    var prevMonth := if v.month == 0 then 11 else v.month - 1;
    var prevYear := if v.month == 0 then v.year - 1 else v.year;
    MonthShape(WeekDay(FirstDay(JsYear(v.year), v.month)),
               DaysInMonth(JsYear(v.year), v.month),
               DaysInMonth(JsYear(prevYear), prevMonth))
  }

  function Headers(): (h: seq<Child>)
    ensures |h| == 7 && forall i :: 0 <= i < 7 ==> h[i] == Header(WeekdayNames[i])
  {
    seq(7, i requires 0 <= i < 7 => Header(WeekdayNames[i]))
  }

  /** The two arguments `createDayElement` is called with. */
  datatype DaySpec = DaySpec(day: int, otherMonth: bool)

  /** One day cell per day specification, built by `mk`. */
  function Elements(mk: (int, bool) -> Cell, specs: seq<DaySpec>): (r: seq<Child>)
    ensures |r| == |specs|
    ensures forall i :: 0 <= i < |r| ==> r[i] == Day(mk(specs[i].day, specs[i].otherMonth))
  {
    seq(|specs|, i requires 0 <= i < |specs| => Day(mk(specs[i].day, specs[i].otherMonth)))
  }

  /** The leading cells: `prevLastDay - i` for `i` from `start - 1` down to 0. */
  function LeadingDays(f: MonthShape): (r: seq<DaySpec>)
    requires ValidShape(f)
  {
    seq(f.start, k requires 0 <= k < f.start => DaySpec(f.prevLength - (f.start - 1 - k), true))
  }

  /** The cells of the displayed month: `1 .. daysInMonth`. */
  function CurrentDays(f: MonthShape): (r: seq<DaySpec>)
    requires ValidShape(f)
  {
    seq(f.length, k => DaySpec(k + 1, false))
  }

  /** The trailing cells: `1 .. remaining`, none if that is not positive. */
  function TrailingDays(remaining: int): (r: seq<DaySpec>) {
    seq(if remaining > 0 then remaining else 0, k => DaySpec(k + 1, true))
  }

  /** The children of the grid container, day cells built by `mk`: the
      headers go in first, so the trailing cells only fill the container,
      headers included, up to 42. */
  function Grid(mk: (int, bool) -> Cell, f: MonthShape): (ch: seq<Child>)
    requires ValidShape(f)
  {
    var headers := Headers();
    var cells := Elements(mk, LeadingDays(f) + CurrentDays(f));
    var totalCells := |headers + cells|;
    var remainingCells := 42 - totalCells;
    headers + cells + Elements(mk, TrailingDays(remainingCells))
  }

  /** `createDayElement` for the displayed month, the clock and the cached
      appointments' date keys. */
  function DayElementOf(v: View, clock: Clock, keys: seq<string>): (int, bool) -> Cell {
    (day, isOtherMonth) => CreateDayElement(v, clock, keys, day, isOtherMonth)
  }

  /** `renderCalendar()`: the month title and the grid's children. */
  function RenderCalendar(v: View, clock: Clock, keys: seq<string>): (r: Rendered)
    requires ValidView(v)
    ensures |r.title| > 0
  {
    Rendered(MonthNames[v.month] + " " + IntToString(v.year), Grid(DayElementOf(v, clock, keys), ShapeOf(v)))
  }

  /** The day specifications of the whole grid, in order. */
  function DaySpecs(f: MonthShape): seq<DaySpec>
    requires ValidShape(f)
  {
    LeadingDays(f) + CurrentDays(f) + TrailingDays(35 - f.start - f.length)
  }

  /** Layout of the day specifications for any month shape: `start`
      leading days counting up to `prevLength`, the days 1 .. `length`, then
      trailing days 1, 2, ... up to 35 day cells in all. */
  lemma DaySpecsLayout(f: MonthShape)
    requires ValidShape(f)
    ensures var d, s, n := DaySpecs(f), f.start, f.length;
            && |d| == (if s + n <= 35 then 35 else s + n)
            && (forall p :: 0 <= p < s ==> d[p] == DaySpec(f.prevLength - s + 1 + p, true))
            && (forall p :: s <= p < s + n ==> d[p] == DaySpec(p - s + 1, false))
            && (forall p :: s + n <= p < |d| ==> d[p] == DaySpec(p - s - n + 1, true))
  {
  }

  /** The grid is the headers followed by one cell per day specification. */
  lemma GridIsElements(mk: (int, bool) -> Cell, f: MonthShape)
    requires ValidShape(f)
    ensures Grid(mk, f) == Headers() + Elements(mk, DaySpecs(f))
  {
    var a, b := LeadingDays(f) + CurrentDays(f), TrailingDays(35 - f.start - f.length);
    assert Elements(mk, a) + Elements(mk, b) == Elements(mk, a + b);
  }

  /** The child at `7 + p` is the cell built for the `p`-th day specification. */
  lemma CellAt(mk: (int, bool) -> Cell, f: MonthShape, p: int)
    requires ValidShape(f)
    requires 0 <= p < |DaySpecs(f)|
    ensures |Grid(mk, f)| == 7 + |DaySpecs(f)|
    ensures Grid(mk, f)[7 + p] == Day(mk(DaySpecs(f)[p].day, DaySpecs(f)[p].otherMonth))
  {
    GridIsElements(mk, f);
    assert (Headers() + Elements(mk, DaySpecs(f)))[7 + p] == Elements(mk, DaySpecs(f))[p];
  }

  /** The child at `7 + p` of the rendered calendar is the cell
      `createDayElement` builds for the `p`-th day specification. */
  lemma RenderedCellAt(v: View, clock: Clock, keys: seq<string>, p: int)
    requires ValidView(v)
    requires 0 <= p < |DaySpecs(ShapeOf(v))|
    ensures |RenderCalendar(v, clock, keys).children| == 7 + |DaySpecs(ShapeOf(v))|
    ensures var c, d := RenderCalendar(v, clock, keys).children[7 + p], DaySpecs(ShapeOf(v))[p];
            && c.Day?
            && c.cell.day == d.day && c.cell.otherMonth == d.otherMonth
            && c.cell.key == DateKey(v.year, v.month, d.day)
            && c.cell.count == CountKey(keys, c.cell.key)
            && (c.cell.today <==> !d.otherMonth && d.day == clock.day && v.month == clock.month && v.year == clock.year)
  {
    var d := DaySpecs(ShapeOf(v))[p];
    CellAt(DayElementOf(v, clock, keys), ShapeOf(v), p);
    var c := CreateDayElement(v, clock, keys, d.day, d.otherMonth);
  }

  /** The grid for any month shape and cell builder: seven weekday
      headers, then one cell per day specification, in order. */
  lemma GridLayout(mk: (int, bool) -> Cell, f: MonthShape)
    requires ValidShape(f)
    ensures var ch, d := Grid(mk, f), DaySpecs(f);
            && |ch| == 7 + |d|
            && (forall i :: 0 <= i < 7 ==> ch[i] == Header(WeekdayNames[i]))
            && (forall i :: 7 <= i < |ch| ==> ch[i] == Day(mk(d[i - 7].day, d[i - 7].otherMonth)))
  {
    var ch := Grid(mk, f);
    var d := DaySpecs(f);
    GridIsElements(mk, f);
    var e := Elements(mk, d);
    forall i | 0 <= i < 7
      ensures ch[i] == Header(WeekdayNames[i])
    {
      assert ch[i] == Headers()[i];
    }
    forall i | 7 <= i < |ch|
      ensures ch[i] == Day(mk(d[i - 7].day, d[i - 7].otherMonth))
    {
      assert ch[i] == e[i - 7];
    }
  }

  /** The console's grid for the displayed month: seven weekday headers,
      then `startingDayOfWeek` leading cells (the weekday of day 1) counting
      up to the last day of the previous month, the days 1 .. `daysInMonth`
      (the Gregorian length of the month), then trailing cells 1, 2, ...
      only while the container, headers included, has fewer than 42
      children. */
  lemma GridContents(v: View, clock: Clock, keys: seq<string>)
    requires ValidView(v)
    ensures var ch := RenderCalendar(v, clock, keys).children;
            var f := ShapeOf(v);
            var s, n := f.start, f.length;
            && n == DaysInMonth(JsYear(v.year), v.month)
            && s == WeekDay(FirstDay(JsYear(v.year), v.month))
            && |ch| == (if s + n <= 35 then 42 else 7 + s + n)
            && (forall i :: 0 <= i < 7 ==> ch[i] == Header(WeekdayNames[i]))
            && (forall i :: 7 <= i < 7 + s ==>
                  ch[i].Day? && ch[i].cell.otherMonth && ch[i].cell.day == f.prevLength - s + i - 6)
            && (forall i :: 7 + s <= i < 7 + s + n ==>
                  ch[i].Day? && !ch[i].cell.otherMonth && ch[i].cell.day == i - 6 - s)
            && (forall i :: 7 + s + n <= i < |ch| ==>
                  ch[i].Day? && ch[i].cell.otherMonth && ch[i].cell.day == i - 6 - s - n)
  {
    var f := ShapeOf(v);
    var ch := RenderCalendar(v, clock, keys).children;
    GridLayout(DayElementOf(v, clock, keys), f);
    forall i | 7 <= i < |ch|
      ensures ch[i].Day? && ch[i].cell.day == DaySpecs(f)[i - 7].day
      ensures ch[i].cell.otherMonth == DaySpecs(f)[i - 7].otherMonth
    {
      RenderedCellAt(v, clock, keys, i - 7);
    }
    DaySpecsLayout(f);
  }

  /** The headers count toward the 42: the trailing cells number
      `max(0, 35 - start - length)` and the day cells `max(35, start +
      length)`, so a month whose leading and own cells exceed 35 gets no
      trailing cells and an incomplete last week. */
  lemma TrailingCellCount(v: View, clock: Clock, keys: seq<string>)
    requires ValidView(v)
    ensures var ch := RenderCalendar(v, clock, keys).children;
            var f := ShapeOf(v);
            && |ch| - 7 - f.start - f.length == (if 35 - f.start - f.length > 0 then 35 - f.start - f.length else 0)
            && |ch| - 7 == (if f.start + f.length > 35 then f.start + f.length else 35)
  {
    GridLayout(DayElementOf(v, clock, keys), ShapeOf(v));
  }

  /** Which month the day cell at position `p` shows, as a Gregorian
      `(year, month)`: the previous one, the displayed one, or the next. */
  function ShownMonth(v: View, p: int): (r: (int, int))
    requires ValidView(v)
    ensures 0 <= r.1 < 12
  {
    var gy, f := JsYear(v.year), ShapeOf(v);
    if p < f.start then PrevMonth(gy, v.month)
    else if p < f.start + f.length then (gy, v.month)
    else NextMonth(gy, v.month)
  }

  /** The day number (days since 1 January 1970) of the date the day cell
      at position `p` stands for. */
  function ShownDate(v: View, p: int): int
    requires ValidView(v)
    requires 0 <= p < |DaySpecs(ShapeOf(v))|
  {
    FirstDay(ShownMonth(v, p).0, ShownMonth(v, p).1) + DaySpecs(ShapeOf(v))[p].day - 1
  }

  /** Counting `p` days on from the Sunday that opens the week of day
      number `first` lands on weekday `p % 7`. */
  lemma WeekDayFromWeekStart(first: int, p: int)
    ensures WeekDay(first - WeekDay(first) + p) == p % 7
  {
    var a := first - WeekDay(first);
    assert (a + 4) % 7 == 0;
    assert (a + p + 4) % 7 == p % 7 by {
      var q := (a + 4) / 7;
      assert a + 4 == 7 * q;
      assert a + p + 4 == 7 * q + p;
    }
  }

  /** Where the `p`-th day specification sits relative to day 1 of the
      displayed month, in each of the three regions. */
  lemma DaySpecOffset(f: MonthShape, p: int)
    requires ValidShape(f)
    requires 0 <= p < |DaySpecs(f)|
    ensures DaySpecs(f)[p].otherMonth <==> !(f.start <= p < f.start + f.length)
    ensures var d := DaySpecs(f)[p].day;
            if p < f.start then 1 <= d <= f.prevLength && d - 1 - f.prevLength == p - f.start
            else if p < f.start + f.length then 1 <= d <= f.length && d - 1 == p - f.start
            else 1 <= d <= 7 && d - 1 + f.length == p - f.start
  {
    DaySpecsLayout(f);
  }

  /** The day specifications run through consecutive calendar days
      starting on the Sunday of the week of day 1, each a real day of the
      month it stands for, so the `p`-th falls on weekday `p % 7`. */
  lemma DaySpecDates(v: View, p: int)
    requires ValidView(v)
    requires 0 <= p < |DaySpecs(ShapeOf(v))|
    ensures 1 <= DaySpecs(ShapeOf(v))[p].day <= DaysInMonth(ShownMonth(v, p).0, ShownMonth(v, p).1)
    ensures ShownDate(v, p) == FirstDay(JsYear(v.year), v.month) - ShapeOf(v).start + p
    ensures WeekDay(ShownDate(v, p)) == p % 7
  {
    var f := ShapeOf(v);
    var gy, m := JsYear(v.year), v.month;
    var first := FirstDay(gy, m);
    DaySpecOffset(f, p);
    if p < f.start {
      var (sy, sm) := PrevMonth(gy, m);
      assert NextMonth(sy, sm) == (gy, m);
      MonthLengthIsGap(sy, sm);
      assert ShownMonth(v, p) == (sy, sm);
    } else if p < f.start + f.length {
      assert ShownMonth(v, p) == (gy, m);
    } else {
      MonthLengthIsGap(gy, m);
      assert ShownMonth(v, p) == NextMonth(gy, m);
    }
    WeekDayFromWeekStart(first, p);
  }

  /** The first seven children are the weekday headers. */
  lemma HeaderAt(mk: (int, bool) -> Cell, f: MonthShape, k: int)
    requires ValidShape(f)
    requires 0 <= k < 7
    ensures k < |Grid(mk, f)| && Grid(mk, f)[k] == Header(WeekdayNames[k])
  {
    GridIsElements(mk, f);
    assert (Headers() + Elements(mk, DaySpecs(f)))[k] == Headers()[k];
  }

  /** Every day cell shows a real day of the month it stands for, the day
      cells run through consecutive calendar days, and each one sits in the
      column headed by its own weekday. */
  lemma CellsFollowCalendar(v: View, clock: Clock, keys: seq<string>, i: int)
    requires ValidView(v)
    requires 7 <= i < |RenderCalendar(v, clock, keys).children|
    ensures var ch := RenderCalendar(v, clock, keys).children;
            && ch[i].Day?
            && ch[i].cell.day == DaySpecs(ShapeOf(v))[i - 7].day
            && 1 <= ch[i].cell.day <= DaysInMonth(ShownMonth(v, i - 7).0, ShownMonth(v, i - 7).1)
            && ShownDate(v, i - 7) == FirstDay(JsYear(v.year), v.month) - ShapeOf(v).start + (i - 7)
            && ch[i % 7] == Header(WeekdayNames[WeekDay(ShownDate(v, i - 7))])
  {
    RenderedCellAt(v, clock, keys, i - 7);
    DaySpecDates(v, i - 7);
    HeaderAt(DayElementOf(v, clock, keys), ShapeOf(v), i % 7);
    assert (i - 7) % 7 == i % 7;
  }

  /** A cell is flagged today only if it is a cell of the displayed month
      whose number is today's day and the displayed month and year are
      today's; so no two cells are flagged. */
  lemma AtMostOneToday(v: View, clock: Clock, keys: seq<string>)
    requires ValidView(v)
    ensures var ch := RenderCalendar(v, clock, keys).children;
            forall i, j :: (7 <= i < |ch| && 7 <= j < |ch| && ch[i].Day? && ch[j].Day?
                            && ch[i].cell.today && ch[j].cell.today) ==> i == j
  {
    var f := ShapeOf(v);
    var ch := RenderCalendar(v, clock, keys).children;
    forall i | 7 <= i < |ch| && ch[i].Day? && ch[i].cell.today
      ensures i == 6 + f.start + clock.day
    {
      RenderedCellAt(v, clock, keys, i - 7);
      DaySpecOffset(f, i - 7);
    }
  }

  /** Some cell is flagged today exactly when the clock's date lies in the
      displayed month. */
  lemma TodayShownIff(v: View, clock: Clock, keys: seq<string>)
    requires ValidView(v)
    ensures var ch := RenderCalendar(v, clock, keys).children;
            (exists i :: 7 <= i < |ch| && ch[i].Day? && ch[i].cell.today)
            <==> clock.year == v.year && clock.month == v.month && 1 <= clock.day <= ShapeOf(v).length
  {
    var f := ShapeOf(v);
    var ch := RenderCalendar(v, clock, keys).children;
    DaySpecsLayout(f);
    forall i | 7 <= i < |ch|
      ensures ch[i].Day? && (ch[i].cell.today <==> !DaySpecs(f)[i - 7].otherMonth && DaySpecs(f)[i - 7].day == clock.day
                                                   && v.month == clock.month && v.year == clock.year)
    {
      RenderedCellAt(v, clock, keys, i - 7);
    }
    if clock.year == v.year && clock.month == v.month && 1 <= clock.day <= f.length {
      var i := 6 + f.start + clock.day;
      assert ch[i].Day? && ch[i].cell.today;
    }
  }

  /** The date key of every cell comes from the displayed month: two cells
      with the same number carry the same key and the same count, even when
      one of them shows a day of the previous or next month. */
  lemma KeyFollowsNumberOnly(v: View, clock: Clock, keys: seq<string>, i: int, j: int)
    requires ValidView(v)
    requires 7 <= i < 7 + |DaySpecs(ShapeOf(v))|
    requires 7 <= j < 7 + |DaySpecs(ShapeOf(v))|
    ensures var ch := RenderCalendar(v, clock, keys).children;
            && i < |ch| && j < |ch| && ch[i].Day? && ch[j].Day?
            && ch[i].cell.key == DateKey(v.year, v.month, ch[i].cell.day)
            && ch[i].cell.count == multiset(keys)[ch[i].cell.key]
            && (ch[i].cell.day == ch[j].cell.day ==>
                  ch[i].cell.key == ch[j].cell.key && ch[i].cell.count == ch[j].cell.count)
  {
    RenderedCellAt(v, clock, keys, i - 7);
    RenderedCellAt(v, clock, keys, j - 7);
  }

  /** Distinct cells of the displayed month have distinct keys, so each one
      counts the appointments of its own date only. */
  lemma CurrentMonthKeysDistinct(v: View, clock: Clock, keys: seq<string>, i: int, j: int)
    requires ValidView(v)
    requires 7 + ShapeOf(v).start <= i < 7 + ShapeOf(v).start + ShapeOf(v).length
    requires 7 + ShapeOf(v).start <= j < 7 + ShapeOf(v).start + ShapeOf(v).length
    requires i != j
    ensures var ch := RenderCalendar(v, clock, keys).children;
            i < |ch| && j < |ch| && ch[i].Day? && ch[j].Day? && ch[i].cell.key != ch[j].cell.key
  {
    var f := ShapeOf(v);
    var p, q := i - 7, j - 7;
    CurrentDaysDistinct(f, p, q);
    var a, b := DaySpecs(f)[p].day, DaySpecs(f)[q].day;
    RenderedCellAt(v, clock, keys, p);
    RenderedCellAt(v, clock, keys, q);
    DateKeyInjective(v.year, v.month, a, v.year, v.month, b);
    assert i == 7 + p && j == 7 + q;
  }

  /** Distinct positions of the displayed month's days carry distinct day
      numbers, each between 1 and 31. */
  lemma CurrentDaysDistinct(f: MonthShape, p: int, q: int)
    requires ValidShape(f)
    requires f.start <= p < f.start + f.length && f.start <= q < f.start + f.length
    requires p != q
    ensures p < |DaySpecs(f)| && q < |DaySpecs(f)|
    ensures 1 <= DaySpecs(f)[p].day <= 31 && 1 <= DaySpecs(f)[q].day <= 31
    ensures DaySpecs(f)[p].day != DaySpecs(f)[q].day
  {
    DaySpecsLayout(f);
    DaySpecOffset(f, p);
    DaySpecOffset(f, q);
  }

  // ------------------------------------------------- the 42-cell grid

  /** As written, a month whose leading and own cells exceed 35 gets an
      incomplete last week: August 2026 starts on a Saturday and has 31
      days, so the container holds 7 headers and 37 day cells, and the
      last week shows only two of its seven days. */
  lemma ShortGridExample(clock: Clock, keys: seq<string>)
    ensures var v := View(2026, 7);
            var ch := RenderCalendar(v, clock, keys).children;
            && ShapeOf(v) == MonthShape(6, 31, 31)
            && |ch| == 44
            && (|ch| - 7) % 7 == 2
  {
    var v := View(2026, 7);
    assert FirstDay(2026, 7) == 20666 by {
      assert DayFromYear(2026) == 20454;
      assert DaysBeforeMonth(2026, 7) == 212 by {
        MonthsFillYear(2026);
      }
    }
    TrailingCellCount(v, clock, keys);
  }

  /** The grid with the trailing cells counted over the day cells only, so
      the 42 of the trailing loop means six weeks of seven days, whatever
      the month, below the headers. */
  function GridFixed(mk: (int, bool) -> Cell, f: MonthShape): (ch: seq<Child>)
    requires ValidShape(f)
  {
    var cells := Elements(mk, LeadingDays(f) + CurrentDays(f));
    Headers() + cells + Elements(mk, TrailingDays(42 - |cells|))
  }

  /** `renderCalendar()` with the trailing count taken over the day cells
      only. */
  function RenderCalendarFixed(v: View, clock: Clock, keys: seq<string>): (r: Rendered)
    requires ValidView(v)
    ensures |r.title| > 0
  {
    Rendered(MonthNames[v.month] + " " + IntToString(v.year), GridFixed(DayElementOf(v, clock, keys), ShapeOf(v)))
  }

  /** The day specifications of the corrected grid. */
  function FixedDaySpecs(f: MonthShape): seq<DaySpec>
    requires ValidShape(f)
  {
    LeadingDays(f) + CurrentDays(f) + TrailingDays(42 - f.start - f.length)
  }

  /** The corrected day specifications are exactly 42, six complete weeks:
      the leading days, the month's days, then trailing days 1 .. `42 -
      start - length` of the next month (at least five of them). */
  lemma FixedDaySpecsLayout(f: MonthShape)
    requires ValidShape(f)
    ensures var d, s, n := FixedDaySpecs(f), f.start, f.length;
            && |d| == 42
            && 42 - s - n >= 5
            && (forall p :: 0 <= p < s ==> d[p] == DaySpec(f.prevLength - s + 1 + p, true))
            && (forall p :: s <= p < s + n ==> d[p] == DaySpec(p - s + 1, false))
            && (forall p :: s + n <= p < 42 ==> d[p] == DaySpec(p - s - n + 1, true))
  {
  }

  /** The corrected grid is the headers followed by one cell per corrected
      day specification. */
  lemma GridFixedIsElements(mk: (int, bool) -> Cell, f: MonthShape)
    requires ValidShape(f)
    ensures GridFixed(mk, f) == Headers() + Elements(mk, FixedDaySpecs(f))
  {
    var a, b := LeadingDays(f) + CurrentDays(f), TrailingDays(42 - f.start - f.length);
    assert Elements(mk, a) + Elements(mk, b) == Elements(mk, a + b);
  }

  /** Every month's corrected grid is six full weeks. */
  lemma RenderCalendarFixedFullWeeks(v: View, clock: Clock, keys: seq<string>)
    requires ValidView(v)
    ensures var ch := RenderCalendarFixed(v, clock, keys).children;
            |ch| == 49 && (|ch| - 7) % 7 == 0
  {
    GridFixedIsElements(DayElementOf(v, clock, keys), ShapeOf(v));
    FixedDaySpecsLayout(ShapeOf(v));
  }
}

=== FILE: form.dfy ===
/**
 * The booking form of the page: reading the fields, the client-side
 * validation, the request it sends, and two display helpers (time
 * formatting and the toast icon).
 */
module Form {
  import opened Wrappers
  import opened Text
  import opened Booking

  /** The five field values of the form, as the page reads them. */
  datatype Fields = Fields(nomeCliente: string, telefone: string, data: string,
                           horario: string, servico: string)

  /** `getFormData()`: the name and the phone are trimmed of surrounding
      white space; the date, time and service are read as they are. */
  function GetFormData(raw: Fields): (f: Fields)
    ensures f.nomeCliente == Trim(raw.nomeCliente) && f.telefone == Trim(raw.telefone)
    ensures f.data == raw.data && f.horario == raw.horario && f.servico == raw.servico
  {
    Fields(Trim(raw.nomeCliente), Trim(raw.telefone), raw.data, raw.horario, raw.servico)
  }

  /** `validateFormData(data)`: every field is a non-empty string. */
  predicate ValidateFormData(f: Fields) {
    f.nomeCliente != "" && f.telefone != "" && f.data != "" && f.horario != "" && f.servico != ""
  }

  /** The page accepts its form exactly when the name and the phone hold
      something besides white space and the other three fields are not
      empty. */
  lemma ValidateIff(raw: Fields)
    ensures ValidateFormData(GetFormData(raw))
            <==> !AllSpace(raw.nomeCliente) && !AllSpace(raw.telefone)
                 && raw.data != "" && raw.horario != "" && raw.servico != ""
  {
    TrimEmptyIff(raw.nomeCliente);
    TrimEmptyIff(raw.telefone);
  }

  /** Reading the form twice gives the same data. */
  lemma GetFormDataIdempotent(raw: Fields)
    ensures GetFormData(GetFormData(raw)) == GetFormData(raw)
  {
    TrimIdempotent(raw.nomeCliente);
    TrimIdempotent(raw.telefone);
  }

  /** `JSON.stringify(formData)` as the server reads it: every field is
      present and is a string. */
  function ToRequest(f: Fields): (req: Request)
    ensures req.nomeCliente.Some? && req.telefone.Some? && req.data.Some?
            && req.horario.Some? && req.servico.Some?
    ensures req.nomeCliente.value == f.nomeCliente && req.telefone.value == f.telefone
            && req.data.value == f.data && req.horario.value == f.horario
            && req.servico.value == f.servico
  {
    Request(Some(f.nomeCliente), Some(f.telefone), Some(f.data), Some(f.horario), Some(f.servico))
  }

  /** On what the page sends, the page's check and the server's guard
      agree: the page submits exactly the forms the server does not refuse
      with 400. */
  lemma ClientServerAgree(raw: Fields, s: Store, now: int)
    ensures var f := GetFormData(raw);
            ValidateFormData(f) <==> Create(s, ToRequest(f), now).status != BadRequest
  {
  }

  /** The server's guard is weaker than the page's check on requests that
      do not come from the page: a name of one space passes the server
      but not the form. */
  lemma ServerAcceptsBlankName(s: Store, now: int)
    ensures var raw := Fields(" ", "11999990000", "2026-10-12", "14:00", "Corte");
            && Complete(ToRequest(raw))
            && Create(s, ToRequest(raw), now).status != BadRequest
            && !ValidateFormData(GetFormData(raw))
  {
    var raw := Fields(" ", "11999990000", "2026-10-12", "14:00", "Corte");
    assert Complete(ToRequest(raw));
    assert !ValidateFormData(GetFormData(raw)) by {
      assert AllSpace(raw.nomeCliente) by {
        assert IsJsSpace(raw.nomeCliente[0]);
      }
      ValidateIff(raw);
    }
  }

  // --------------------------------------------------------- display

  /** `formatTime(t)`: `t.substring(0, 5)`. */
  function FormatTime(t: string): (r: string)
    ensures |r| == if |t| < 5 then |t| else 5
    ensures r <= t
  {
    if |t| < 5 then t else t[..5]
  }

  /** Formatting a formatted time changes nothing. */
  lemma FormatTimeIdempotent(t: string)
    ensures FormatTime(FormatTime(t)) == FormatTime(t)
  {
  }

  /** A time the database returns as `HH:MM:SS` is shown as `HH:MM`, and
      one already written `HH:MM` is shown unchanged. */
  lemma FormatTimeDropsSeconds(h: string, m: string, sec: string)
    requires |h| == 2 && |m| == 2
    ensures FormatTime(h + ":" + m + ":" + sec) == h + ":" + m
    ensures FormatTime(h + ":" + m) == h + ":" + m
  {
    var t := h + ":" + m + ":" + sec;
    assert t[..5] == h + ":" + m;
  }

  /** The icon of each toast type. */
  const Icons: map<string, string> := map[
    "success" := "fas fa-check-circle",
    "error" := "fas fa-exclamation-circle",
    "warning" := "fas fa-exclamation-triangle",
    "info" := "fas fa-info-circle"
  ]

  /** `getToastIcon(type)`: the type's icon, the `info` icon for any other
      type. */
  function ToastIcon(kind: string): (icon: string)
    ensures icon in Icons.Values
    ensures kind in Icons ==> icon == Icons[kind]
    ensures kind !in Icons ==> icon == Icons["info"]
  {
    if kind in Icons then Icons[kind] else Icons["info"]
  }

  /** The four toast types get four different icons. */
  lemma ToastIconsDistinct(a: string, b: string)
    requires a in Icons && b in Icons && a != b
    ensures ToastIcon(a) != ToastIcon(b)
  {
  }
}

=== FILE: gregorian.dfy ===
/**
 * The proleptic Gregorian calendar as JavaScript's `Date` computes it: day
 * numbers count from 1 January 1970 (ECMAScript `DayFromYear`), weekdays run
 * 0 = Sunday .. 6 = Saturday, and months are numbered 0 .. 11.
 */
module Gregorian {

  predicate IsLeapYear(y: int) {
    y % 4 == 0 && (y % 100 != 0 || y % 400 == 0)
  }

  function DaysInYear(y: int): int {
    if IsLeapYear(y) then 366 else 365
  }

  /** Length of month `m` (0-based) of year `y`. */
  function DaysInMonth(y: int, m: int): (n: int)
    requires 0 <= m < 12
    ensures 28 <= n <= 31
  {
    if m == 1 then (if IsLeapYear(y) then 29 else 28)
    else if m == 3 || m == 5 || m == 8 || m == 10 then 30
    else 31
  }

  /** Days in the months of `y` before month `m`. */
  function DaysBeforeMonth(y: int, m: int): int
    requires 0 <= m <= 12
  {
    if m == 0 then 0 else DaysBeforeMonth(y, m - 1) + DaysInMonth(y, m - 1)
  }

  /** Day number of 1 January of `y` (ECMAScript DayFromYear; `/` floors
      here because every divisor is positive). */
  function DayFromYear(y: int): int {
    365 * (y - 1970) + (y - 1969) / 4 - (y - 1901) / 100 + (y - 1601) / 400
  }

  /** Day number of the first day of month `m` of year `y`. */
  function FirstDay(y: int, m: int): int
    requires 0 <= m < 12
  {
    DayFromYear(y) + DaysBeforeMonth(y, m)
  }

  /** Weekday of a day number: 1 January 1970 was a Thursday. */
  function WeekDay(t: int): (w: int)
    ensures 0 <= w < 7
    ensures (t - w) % 7 == 3
  {
    (t + 4) % 7
  }

  /** The month after `(y, m)`, and the one before it. */
  function NextMonth(y: int, m: int): (r: (int, int))
    requires 0 <= m < 12
    ensures 0 <= r.1 < 12 && 12 * r.0 + r.1 == 12 * y + m + 1
  {
    if m == 11 then (y + 1, 0) else (y, m + 1)
  }

  function PrevMonth(y: int, m: int): (r: (int, int))
    requires 0 <= m < 12
    ensures 0 <= r.1 < 12 && 12 * r.0 + r.1 == 12 * y + m - 1
  {
    if m == 0 then (y - 1, 11) else (y, m - 1)
  }

  /** `new Date(y, ...)` reads a year argument in 0 .. 99 as 1900 + y. */
  function JsYear(y: int): (r: int)
    ensures 0 <= y <= 99 ==> r == 1900 + y
    ensures !(0 <= y <= 99) ==> r == y
  {
    if 0 <= y <= 99 then 1900 + y else y
  }

  /** The twelve month lengths add up to the length of the year. */
  lemma MonthsFillYear(y: int)
    ensures DaysBeforeMonth(y, 12) == DaysInYear(y)
  {
    var feb := DaysInMonth(y, 1);
    assert DaysBeforeMonth(y, 1) == 31;
    assert DaysBeforeMonth(y, 2) == 31 + feb;
    assert DaysBeforeMonth(y, 3) == 62 + feb;
    assert DaysBeforeMonth(y, 4) == 92 + feb;
    assert DaysBeforeMonth(y, 5) == 123 + feb;
    assert DaysBeforeMonth(y, 6) == 153 + feb;
    assert DaysBeforeMonth(y, 7) == 184 + feb;
    assert DaysBeforeMonth(y, 8) == 215 + feb;
    assert DaysBeforeMonth(y, 9) == 245 + feb;
    assert DaysBeforeMonth(y, 10) == 276 + feb;
    assert DaysBeforeMonth(y, 11) == 306 + feb;
    assert DaysBeforeMonth(y, 12) == 337 + feb;
  }

  /** The ECMAScript DayFromYear formula advances by exactly the length of
      the year under the leap-year rule. */
  lemma DayFromYearStep(y: int)
    ensures DayFromYear(y + 1) == DayFromYear(y) + DaysInYear(y)
  {
    var a, b, c := (y - 1969) / 4, (y - 1901) / 100, (y - 1601) / 400;
    var a', b', c' := (y - 1968) / 4, (y - 1900) / 100, (y - 1600) / 400;
    assert DayFromYear(y) == 365 * (y - 1970) + a - b + c;
    assert DayFromYear(y + 1) == 365 * (y - 1969) + a' - b' + c';
    LeapDayStep(y);
    CenturyStep(y);
    QuadCenturyStep(y);
    LeapRule(y);
  }

  /** The leap-year rule as the inclusion-exclusion of its three
      divisibility tests. */
  lemma LeapRule(y: int)
    ensures DaysInYear(y) - 365
            == (if y % 4 == 0 then 1 else 0) - (if y % 100 == 0 then 1 else 0) + (if y % 400 == 0 then 1 else 0)
  {
    if y % 100 == 0 {
      var k := y / 100;
      assert y == 4 * (25 * k);
    }
    if y % 400 == 0 {
      var k := y / 400;
      assert y == 100 * (4 * k);
    }
  }

  // Each floor term of DayFromYear grows by one exactly when `y` is a
  // multiple of its divisor.

  lemma LeapDayStep(y: int)
    ensures (y - 1968) / 4 == (y - 1969) / 4 + (if y % 4 == 0 then 1 else 0)
  {
  }

  lemma CenturyStep(y: int)
    ensures (y - 1900) / 100 == (y - 1901) / 100 + (if y % 100 == 0 then 1 else 0)
  {
  }

  lemma QuadCenturyStep(y: int)
    ensures (y - 1600) / 400 == (y - 1601) / 400 + (if y % 400 == 0 then 1 else 0)
  {
  }

  /** The first day of the next month comes exactly `DaysInMonth` days after
      the first day of this one: `DaysInMonth(y, m)` is the day-of-month of
      `new Date(y, m + 1, 0)`. */
  lemma MonthLengthIsGap(y: int, m: int)
    requires 0 <= m < 12
    ensures FirstDay(NextMonth(y, m).0, NextMonth(y, m).1) == FirstDay(y, m) + DaysInMonth(y, m)
  {
    if m == 11 {
      MonthsFillYear(y);
      DayFromYearStep(y);
    }
  }
}

=== FILE: rows.dfy ===
/**
 * Rows of the `agendamentos` table and the two orders the server's queries
 * ask for. Dates (`data`) and times (`horario`) are held as the text the
 * client sent and compared character by character. For dates written
 * `YYYY-MM-DD` and times written `HH:MM:SS` (or all written `HH:MM`) that
 * order is the order of the dates and times they denote; the database's
 * `DATE` and `TIME` types also identify different spellings of one value
 * ("14:00" and "14:00:00"), which text comparison does not.
 */
module Rows {
  import opened Wrappers
  import opened Text

  /** One appointment. `createdAt` is `None` when the query did not select
      the `created_at` column. */
  datatype Row = Row(id: nat, nomeCliente: string, telefone: string, data: string,
                     horario: string, servico: string, createdAt: Option<int>)

  /** `ORDER BY data ASC, horario ASC` and `ORDER BY horario ASC`. */
  datatype Order = BySlot | ByTime

  /** `a` may come before `b` in order `o`. */
  predicate Le(o: Order, a: Row, b: Row) {
    match o
    case BySlot => StrLe(a.data, b.data) && (a.data == b.data ==> StrLe(a.horario, b.horario))
    case ByTime => StrLe(a.horario, b.horario)
  }

  /** Two rows book the same slot: the same date and the same time. */
  predicate SameSlot(a: Row, b: Row) {
    a.data == b.data && a.horario == b.horario
  }

  lemma LeTotal(o: Order, a: Row, b: Row)
    ensures Le(o, a, b) || Le(o, b, a)
  {
    StrLeTotal(a.data, b.data);
    StrLeTotal(a.horario, b.horario);
    if a.data != b.data && StrLe(a.data, b.data) && StrLe(b.data, a.data) {
      StrLeAntisymmetric(a.data, b.data);
    }
  }

  lemma LeTransitive(o: Order, a: Row, b: Row, c: Row)
    requires Le(o, a, b) && Le(o, b, c)
    ensures Le(o, a, c)
  {
    if o == ByTime {
      StrLeTransitive(a.horario, b.horario, c.horario);
    } else {
      StrLeTransitive(a.data, b.data, c.data);
      if a.data == c.data {
        StrLeAntisymmetric(a.data, b.data);
        StrLeTransitive(a.horario, b.horario, c.horario);
      }
    }
  }

  /** Rows tied in both directions book the same slot (by slot) or the same
      time (by time). */
  lemma LeAntisymmetric(o: Order, a: Row, b: Row)
    requires Le(o, a, b) && Le(o, b, a)
    ensures a.horario == b.horario
    ensures o == BySlot ==> a.data == b.data
  {
    if o == BySlot {
      StrLeAntisymmetric(a.data, b.data);
    }
    StrLeAntisymmetric(a.horario, b.horario);
  }

  predicate Sorted(o: Order, rs: seq<Row>) {
    forall i, j :: 0 <= i < j < |rs| ==> Le(o, rs[i], rs[j])
  }

  /** A row that may precede every row of a sorted sequence may head it. */
  lemma SortedCons(o: Order, x: Row, t: seq<Row>)
    requires Sorted(o, t)
    requires forall k :: 0 <= k < |t| ==> Le(o, x, t[k])
    ensures Sorted(o, [x] + t)
  {
    var r := [x] + t;
    forall i, j | 0 <= i < j < |r|
      ensures Le(o, r[i], r[j])
    {
      if i == 0 {
        assert r[j] == t[j - 1];
      } else {
        assert r[i] == t[i - 1] && r[j] == t[j - 1];
      }
    }
  }

  /** The head of a sorted sequence may precede each of its rows. */
  lemma HeadFirst(o: Order, rs: seq<Row>, x: Row)
    requires Sorted(o, rs)
    requires x in multiset(rs)
    ensures rs != [] && Le(o, rs[0], x)
  {
    assert x in rs;
    var i :| 0 <= i < |rs| && rs[i] == x;
    if i == 0 {
      LeTotal(o, x, x);
    }
  }

  /** Inserts `x` into a sorted sequence, before the first row it may precede,
      so that `x` goes ahead of the rows it ties with. */
  function Insert(o: Order, x: Row, rs: seq<Row>): (r: seq<Row>)
    requires Sorted(o, rs)
    ensures multiset(r) == multiset(rs) + multiset{x}
    ensures Sorted(o, r)
  {
    if rs == [] then [x]
    else if Le(o, x, rs[0]) then
      assert forall j :: 0 < j < |rs| ==> Le(o, x, rs[j]) by {
        forall j | 0 < j < |rs| {
          LeTransitive(o, x, rs[0], rs[j]);
        }
      }
      SortedCons(o, x, rs);
      [x] + rs
    else
      var t := Insert(o, x, rs[1..]);
      assert rs == [rs[0]] + rs[1..];
      LeTotal(o, x, rs[0]);
      assert forall k :: 0 <= k < |t| ==> Le(o, rs[0], t[k]) by {
        forall k | 0 <= k < |t|
          ensures Le(o, rs[0], t[k])
        {
          assert t[k] in multiset(t);
          if t[k] != x {
            HeadFirst(o, rs, t[k]);
          }
        }
      }
      SortedCons(o, rs[0], t);
      [rs[0]] + t
  }

  /** The rows in order `o`: the SQL `ORDER BY` promises a sorted
      permutation; rows tied in the order keep their relative order here. */
  function Sort(o: Order, rs: seq<Row>): (r: seq<Row>)
    ensures multiset(r) == multiset(rs)
    ensures Sorted(o, r)
  {
    if rs == [] then []
    else
      assert rs == [rs[0]] + rs[1..];
      Insert(o, rs[0], Sort(o, rs[1..]))
  }

  /** `WHERE data = d`, in the order of `rs`. */
  function Filter(rs: seq<Row>, d: string): (r: seq<Row>)
    ensures forall x :: multiset(r)[x] == if x.data == d then multiset(rs)[x] else 0
  {
    if rs == [] then []
    else
      assert rs == [rs[0]] + rs[1..];
      (if rs[0].data == d then [rs[0]] else []) + Filter(rs[1..], d)
  }

  /** Every row of the sorted filter has date `d`. */
  lemma SortedFilterDates(o: Order, rs: seq<Row>, d: string)
    ensures forall i :: 0 <= i < |Sort(o, Filter(rs, d))| ==> Sort(o, Filter(rs, d))[i].data == d
  {
    var t := Sort(o, Filter(rs, d));
    forall i | 0 <= i < |t|
      ensures t[i].data == d
    {
      assert t[i] in multiset(t);
    }
  }

  /** Rows sharing one date, sorted by slot, are sorted by time. */
  lemma SameDateSortedByTime(rs: seq<Row>, d: string)
    requires Sorted(BySlot, rs)
    requires forall i :: 0 <= i < |rs| ==> rs[i].data == d
    ensures Sorted(ByTime, rs)
  {
  }

  /** Filtering keeps a sorted sequence sorted. */
  lemma {:induction false} FilterSorted(o: Order, rs: seq<Row>, d: string)
    requires Sorted(o, rs)
    ensures Sorted(o, Filter(rs, d))
  {
    if rs != [] {
      assert rs == [rs[0]] + rs[1..];
      FilterSorted(o, rs[1..], d);
      var t := Filter(rs[1..], d);
      if rs[0].data == d {
        forall k | 0 <= k < |t|
          ensures Le(o, rs[0], t[k])
        {
          assert t[k] in multiset(t);
          assert t[k] in multiset(rs[1..]);
          HeadFirst(o, rs, t[k]);
        }
        SortedCons(o, rs[0], t);
      }
    }
  }

  /** No two distinct rows of the multiset are tied in order `o`. */
  predicate StrictOn(o: Order, m: multiset<Row>) {
    forall x, y :: x in m && y in m && Le(o, x, y) && Le(o, y, x) ==> x == y
  }

  lemma StrictOnSmaller(o: Order, m: multiset<Row>, m': multiset<Row>)
    requires m' <= m && StrictOn(o, m)
    ensures StrictOn(o, m')
  {
  }

  /** Without ties there is only one sorted arrangement of a multiset. */
  lemma {:induction false} SortedUnique(o: Order, a: seq<Row>, b: seq<Row>)
    requires Sorted(o, a) && Sorted(o, b)
    requires multiset(a) == multiset(b)
    requires StrictOn(o, multiset(a))
    ensures a == b
  {
    if a != [] {
      assert a[0] in multiset(a);
      HeadFirst(o, b, a[0]);
      assert b[0] in multiset(b);
      HeadFirst(o, a, b[0]);
      assert a[0] == b[0];
      assert a == [a[0]] + a[1..];
      assert b == [b[0]] + b[1..];
      assert multiset(a[1..]) == multiset(a) - multiset{a[0]};
      assert multiset(b[1..]) == multiset(b) - multiset{b[0]};
      StrictOnSmaller(o, multiset(a), multiset(a[1..]));
      SortedUnique(o, a[1..], b[1..]);
    }
  }

  /** Filtering a sequence sorted by slot gives one sorted by time. */
  lemma FilterBySlotIsByTime(rs: seq<Row>, d: string)
    requires Sorted(BySlot, rs)
    ensures Sorted(ByTime, Filter(rs, d))
  {
    var b := Filter(rs, d);
    FilterSorted(BySlot, rs, d);
    forall i | 0 <= i < |b|
      ensures b[i].data == d
    {
      assert b[i] in multiset(b);
    }
    SameDateSortedByTime(b, d);
  }

  /** No two distinct rows of `rs` book the same slot. */
  ghost predicate SlotsDistinct(rs: seq<Row>) {
    forall x, y :: x in rs && y in rs && SameSlot(x, y) ==> x == y
  }

  /** Among rows of one date with distinct slots, no two are tied by time. */
  lemma FilterStrictByTime(rs: seq<Row>, d: string)
    requires SlotsDistinct(rs)
    ensures StrictOn(ByTime, multiset(Filter(rs, d)))
  {
    forall x, y | x in multiset(Filter(rs, d)) && y in multiset(Filter(rs, d))
                  && Le(ByTime, x, y) && Le(ByTime, y, x)
      ensures x == y
    {
      LeAntisymmetric(ByTime, x, y);
      assert x.data == d && y.data == d;
      assert x in multiset(rs) && y in multiset(rs);
      assert x in rs && y in rs;
      assert SameSlot(x, y);
    }
  }

  /** With distinct slots, sorting one date's rows by time gives the same
      sequence as filtering the rows sorted by date and time. */
  lemma SortFilterCommute(rs: seq<Row>, d: string)
    requires SlotsDistinct(rs)
    ensures Sort(ByTime, Filter(rs, d)) == Filter(Sort(BySlot, rs), d)
  {
    var all := Sort(BySlot, rs);
    var a := Sort(ByTime, Filter(rs, d));
    var b := Filter(all, d);
    assert Sorted(ByTime, a);
    assert Sorted(ByTime, b) by {
      FilterBySlotIsByTime(all, d);
    }
    assert multiset(a) == multiset(b) by {
      FilterSameMultiset(all, rs, d);
    }
    assert StrictOn(ByTime, multiset(a)) by {
      FilterStrictByTime(rs, d);
    }
    SortedUnique(ByTime, a, b);
  }

  /** Filtering rearranged rows gives the filtered rows rearranged. */
  lemma FilterSameMultiset(a: seq<Row>, b: seq<Row>, d: string)
    requires multiset(a) == multiset(b)
    ensures multiset(Filter(a, d)) == multiset(Filter(b, d))
  {
    assert forall x :: multiset(Filter(a, d))[x] == multiset(Filter(b, d))[x];
  }

  /** `SELECT` without the `created_at` column. */
  function Strip(x: Row): (r: Row)
    ensures r.createdAt == None
    ensures r.(createdAt := x.createdAt) == x
  {
    x.(createdAt := None)
  }

  function StripAll(rs: seq<Row>): (r: seq<Row>)
    ensures |r| == |rs|
    ensures forall i :: 0 <= i < |rs| ==> r[i] == Strip(rs[i])
  {
    seq(|rs|, i requires 0 <= i < |rs| => Strip(rs[i]))
  }
}

=== FILE: text.dfy ===
/**
 * String helpers mirroring the JavaScript built-ins the booking client and
 * server rely on: `String.prototype.trim`, decimal `String(n)` and
 * `padStart(2, '0')`, plus the code-point order under which the store sorts
 * its canonical date and time strings.
 */
module Text {

  // ---------------------------------------------------------------- trim

  /** The characters `String.prototype.trim` strips: the ECMAScript
      WhiteSpace (including every Zs space) and LineTerminator characters. */
  predicate IsJsSpace(c: char) {
    || c == '\t' || c == '\U{B}' || c == '\U{C}' || c == ' ' || c == '\U{A0}' || c == '\U{FEFF}'
    || c == '\n' || c == '\r' || c == '\U{2028}' || c == '\U{2029}'
    || c == '\U{1680}' || ('\U{2000}' <= c <= '\U{200A}')
    || c == '\U{202F}' || c == '\U{205F}' || c == '\U{3000}'
  }

  /** The characters `s[lo..hi]` are all white space. */
  predicate SpaceRun(s: string, lo: int, hi: int)
    requires 0 <= lo <= hi <= |s|
    decreases hi - lo
  {
    lo == hi || (IsJsSpace(s[lo]) && SpaceRun(s, lo + 1, hi))
  }

  /** Every character of `s` is white space. */
  predicate AllSpace(s: string) {
    SpaceRun(s, 0, |s|)
  }

  lemma {:induction false} SpaceRunAt(s: string, lo: int, hi: int, k: int)
    requires 0 <= lo <= k < hi <= |s| && SpaceRun(s, lo, hi)
    ensures IsJsSpace(s[k])
    decreases k - lo
  {
    if k > lo {
      SpaceRunAt(s, lo + 1, hi, k);
    }
  }

  lemma {:induction false} SpaceRunJoin(s: string, lo: int, mid: int, hi: int)
    requires 0 <= lo <= mid <= hi <= |s|
    ensures SpaceRun(s, lo, hi) <==> SpaceRun(s, lo, mid) && SpaceRun(s, mid, hi)
    decreases mid - lo
  {
    if lo < mid {
      SpaceRunJoin(s, lo + 1, mid, hi);
    }
  }

  /** Where the white space starting at `k` ends. */
  function SkipSpaces(s: string, k: int): (n: int)
    requires 0 <= k <= |s|
    ensures k <= n <= |s| && SpaceRun(s, k, n)
    ensures n < |s| ==> !IsJsSpace(s[n])
    decreases |s| - k
  {
    if k < |s| && IsJsSpace(s[k]) then SkipSpaces(s, k + 1) else k
  }

  /** Where the white space ending at `k` starts, scanning back no further
      than `lo`. */
  function SkipSpacesBack(s: string, lo: int, k: int): (n: int)
    requires 0 <= lo <= k <= |s|
    ensures lo <= n <= k && SpaceRun(s, n, k)
    ensures lo < n ==> !IsJsSpace(s[n - 1])
    decreases k - lo
  {
    if lo < k && IsJsSpace(s[k - 1]) then
      var n := SkipSpacesBack(s, lo, k - 1);
      SpaceRunJoin(s, n, k - 1, k);
      n
    else k
  }

  /** `s.trim()`: the slice of `s` left after removing white space at both
      ends; only white space is removed, and none remains at either end. */
  function Trim(s: string): (r: string)
    ensures exists i, j :: 0 <= i <= j <= |s| && r == s[i..j] && SpaceRun(s, 0, i) && SpaceRun(s, j, |s|)
    ensures r == [] || (!IsJsSpace(r[0]) && !IsJsSpace(r[|r| - 1]))
  {
    var i := SkipSpaces(s, 0);
    s[i..SkipSpacesBack(s, i, |s|)]
  }

  /** A string trims to nothing exactly when it is all white space. */
  lemma TrimEmptyIff(s: string)
    ensures Trim(s) == [] <==> AllSpace(s)
  {
    var i := SkipSpaces(s, 0);
    var j := SkipSpacesBack(s, i, |s|);
    assert Trim(s) == s[i..j];
    if i == j {
      SpaceRunJoin(s, 0, i, |s|);
    } else if AllSpace(s) {
      SpaceRunAt(s, 0, |s|, i);
    }
  }

  /** Trimming twice is trimming once. */
  lemma TrimIdempotent(s: string)
    ensures Trim(Trim(s)) == Trim(s)
  {
    var t := Trim(s);
    if t != [] {
      assert SkipSpaces(t, 0) == 0;
      assert SkipSpacesBack(t, 0, |t|) == |t|;
      assert t[0..|t|] == t;
    }
  }

  // ------------------------------------------------------ decimal numbers

  predicate IsDigit(c: char) {
    '0' <= c <= '9'
  }

  predicate AllDigits(s: string) {
    forall k :: 0 <= k < |s| ==> IsDigit(s[k])
  }

  function DigitChar(d: nat): (c: char)
    requires d < 10
  {
    (d + '0' as int) as char
  }

  function DigitValue(c: char): (d: nat)
    requires IsDigit(c)
  {
    c as int - '0' as int
  }

  /** `String(n)` for a non-negative integer: its shortest decimal numeral. */
  function NatToString(n: nat): (r: string)
    ensures |r| >= 1 && AllDigits(r)
    ensures r[0] == '0' ==> n == 0
  {
    if n < 10 then [DigitChar(n)] else NatToString(n / 10) + [DigitChar(n % 10)]
  }

  /** The value of a decimal numeral, most significant digit first. */
  function ParseDigits(s: string): nat
    requires AllDigits(s)
  {
    if s == [] then 0 else ParseDigits(s[..|s| - 1]) * 10 + DigitValue(s[|s| - 1])
  }

  /** Reading back the numeral of `n` gives `n`. */
  lemma {:induction false} ParseNatToString(n: nat)
    ensures ParseDigits(NatToString(n)) == n
  {
    var r := NatToString(n);
    if n >= 10 {
      ParseNatToString(n / 10);
      assert r[..|r| - 1] == NatToString(n / 10);
    }
  }

  lemma NatToStringInjective(a: nat, b: nat)
    ensures NatToString(a) == NatToString(b) ==> a == b
  {
    ParseNatToString(a);
    ParseNatToString(b);
  }

  /** `String(i)` for any integer: a minus sign before negative numerals. */
  function IntToString(i: int): (r: string)
    ensures |r| >= 1
    ensures i >= 0 <==> r[0] != '-'
  {
    if i < 0 then "-" + NatToString(-i) else NatToString(i)
  }

  lemma IntToStringInjective(a: int, b: int)
    ensures IntToString(a) == IntToString(b) ==> a == b
  {
    if IntToString(a) == IntToString(b) {
      if a < 0 && b < 0 {
        assert NatToString(-a) == IntToString(a)[1..];
        assert NatToString(-b) == IntToString(b)[1..];
        NatToStringInjective(-a, -b);
      } else if a >= 0 && b >= 0 {
        NatToStringInjective(a, b);
      }
    }
  }

  /** `s.padStart(2, '0')`: zeros are prepended until the string has two
      characters; longer strings are left alone. */
  function PadStart2(s: string): (r: string)
    ensures |r| == if |s| >= 2 then |s| else 2
    ensures r[|r| - |s|..] == s
    ensures forall k :: 0 <= k < |r| - |s| ==> r[k] == '0'
  {
    if |s| >= 2 then s else seq(2 - |s|, _ => '0') + s
  }

  /** A leading zero does not change the value of a numeral. */
  lemma {:induction false} ParseLeadingZero(s: string)
    requires AllDigits(s)
    ensures ParseDigits("0" + s) == ParseDigits(s)
  {
    if s != [] {
      ParseLeadingZero(s[..|s| - 1]);
      assert ("0" + s)[..|s|] == "0" + s[..|s| - 1];
    }
  }

  /** Two-digit zero padding of numbers below 100 loses no information. */
  lemma Pad2Injective(a: nat, b: nat)
    requires a < 100 && b < 100
    ensures PadStart2(NatToString(a)) == PadStart2(NatToString(b)) ==> a == b
  {
    PadParse(a);
    PadParse(b);
  }

  lemma PadParse(n: nat)
    requires n < 100
    ensures AllDigits(PadStart2(NatToString(n)))
    ensures ParseDigits(PadStart2(NatToString(n))) == n
  {
    var s := NatToString(n);
    ParseNatToString(n);
    if n < 10 {
      assert |s| == 1;
      assert PadStart2(s) == "0" + s;
      ParseLeadingZero(s);
    } else {
      assert |NatToString(n / 10)| == 1;
      assert PadStart2(s) == s;
    }
  }

  // ------------------------------------------------------- string order

  /** Lexicographic order on code points; the canonical `YYYY-MM-DD` and
      `HH:MM:SS` strings sort chronologically under it. */
  predicate StrLe(a: string, b: string) {
    if a == [] then true
    else if b == [] then false
    else if a[0] != b[0] then a[0] < b[0]
    else StrLe(a[1..], b[1..])
  }

  lemma {:induction false} StrLeTotal(a: string, b: string)
    ensures StrLe(a, b) || StrLe(b, a)
  {
    if a != [] && b != [] && a[0] == b[0] {
      StrLeTotal(a[1..], b[1..]);
    }
  }

  lemma {:induction false} StrLeAntisymmetric(a: string, b: string)
    requires StrLe(a, b) && StrLe(b, a)
    ensures a == b
  {
    if a != [] && b != [] {
      StrLeAntisymmetric(a[1..], b[1..]);
      assert a == [a[0]] + a[1..];
      assert b == [b[0]] + b[1..];
    }
  }

  lemma {:induction false} StrLeTransitive(a: string, b: string, c: string)
    requires StrLe(a, b) && StrLe(b, c)
    ensures StrLe(a, c)
  {
    if a != [] && b != [] && c != [] && a[0] == b[0] && b[0] == c[0] {
      StrLeTransitive(a[1..], b[1..], c[1..]);
    }
  }
}

=== FILE: wrappers.dfy ===
/** A value that may be absent: a missing JSON field, a cell without a label. */
module Wrappers {

  datatype Option<+T> = None | Some(value: T)

}
